=== FILE: README.md ===
# Darwin Bitget bot: the pure computations, in Dafny

The bot scans USDT perpetual swaps on Bitget for Bollinger-band signals,
parks each signal until the next candle opens, re-checks it there, trades
the best one, records trades in SQLite and reports on them through
Telegram. Almost all of that is I/O. This project models the
deterministic logic inside it, with prices, amounts and clock readings as
exact reals:

- **Pending-signal re-validation and selection** (`Pending`). A pending
  signal gets a new take-profit, chosen by regime and side. Its
  reward/risk ratio is recomputed at the new candle's open. Signals below
  the minimum ratio are dropped. The pending book is emptied. The
  surviving signal with the highest ratio is chosen, and the earliest
  pending signal wins ties.
- **Recent signals** (`Recent`): pruning to a time window, and the
  `/signals` and `/recent` listings.
- **Detection bookkeeping** (`Scan`). A detected signal is remembered only
  once. It becomes pending only if its symbol has no pending signal yet.
- **`/history`** (`History`). Stored symbols are mapped to exchange market
  symbols, with a fallback list when none match. Fills are summed per
  order.
- **`/setuniverse` and `/setmaxpos`** (`Commands`), including Python's
  `int()` on the argument.
- **Performance statistics and the report's branches** (`Reporting`).
- **Trade creation and closing** (`Database`). This covers side-dependent
  PnL, the PnL percentage guarded against zero notional, duration in whole
  minutes, and the exact set of columns a close writes.

Python dictionaries iterate in insertion order, and that order decides
ties in the best-signal choice. So the pending dictionary is modelled as
an insertion-ordered sequence of entries with unique symbols.
`float('inf')` is the `Infinite` variant of `Reporting.ProfitFactor`.
Clock readings (`time.time()`) and exchange downloads are parameters.

The trading functions `main.py` calls (`detect_signal`, `execute_trade`,
`manage_open_positions`, `_get_indicators`) are not part of this model.

## Model

| member | source | states |
|---|---|---|
| Pending.TakeProfit | main.py:139-142 | The take-profit is chosen as follows: the upper 80-period band for a trend buy, the lower 80-period band for a trend sell, the upper 20-period band for a counter-trend buy, and the lower 20-period band in every other case. |
| Pending.RiskReward | main.py:144-145 | Ratio × (entry − sl) = tp − entry for a buy with entry > sl. Ratio × (sl − entry) = entry − tp for a sell with sl > entry. The ratio is exactly 0 otherwise. |
| Pending.RiskRewardThreshold | main.py:144-147 | With a positive risk, the ratio reaches MIN_RR exactly when the reward reaches MIN_RR times the risk. |
| Pending.Revalidate | main.py:130-156 | A pending signal is kept exactly when a newer candle with indicators was fetched and the recomputed ratio is ≥ MIN_RR. A kept signal carries the new tp, ratio, entry price and symbol, and nothing else changes. |
| Pending.SelectBest | main.py:125-166 | The book comes back empty. Nothing is chosen exactly when no signal survives. Otherwise the chosen signal is a survivor with maximal ratio, and no earlier survivor has an equal ratio, which is the stable descending sort's first element. |
| Recent.KeepSince | main.py:94 | Only entries stamped at or after the cutoff remain, and the result is no longer than the input. |
| Recent.KeepSinceKeepsRecent | main.py:94 | Every entry stamped at or after the cutoff survives. |
| Recent.KeepSinceAppend | main.py:94 | Pruning distributes over concatenation, so survivors keep their original order. |
| Recent.KeepSinceTwice | main.py:92-100 | Pruning to an earlier cutoff and then to a later one is the same as pruning to the later one. |
| Recent.Cleanup | main.py:90-94 | An entry survives cleanup exactly when its timestamp is ≥ now − hours·3600. |
| Recent.CleanupIdempotent | main.py:90-94 | Cleaning up twice at the same moment equals cleaning up once. |
| Recent.ListingOf | main.py:101-102 | The "no signal" reply is given exactly when the period holds no signal. Otherwise the reply counts and lists exactly those signals. |
| Recent.RecentMessageAsWritten | main.py:96-101 | As written, the shared list is pruned to the requested window. When the clock does not go back, the reply lists exactly the entries inside the window at the time of the query. |
| Recent.OneHourListingLosesRecentSignal | main.py:96-101 | Counterexample: a signal two hours old is pruned by `/signals` (1 h), so a following `/recent` (6 h) shows nothing, though it would have shown that signal. |
| Recent.PruneHours | main.py:90 | The corrected pruning window is never shorter than the requested window or the 6-hour default. |
| Recent.RecentMessage | main.py:96-101 | Corrected listing: the reply is the same as in the original. The list left behind holds exactly the entries inside the retention window. |
| Recent.RecentMessageKeepsRetention | main.py:90-101 | After a corrected listing of any window, a 6-hour cleanup gives the same entries as before the listing. |
| Scan.Lookup | main.py:408 | A symbol has an entry exactly when some pending entry carries it, and the entry found is one of the book's entries for that symbol. |
| Scan.OnSignal | main.py:403-410 | The recent list grows by one entry exactly when no equal signal is present; equality compares every key of the signal, including those the model does not otherwise read. The pending book grows by one entry exactly when the symbol is not pending. Afterwards the signal is in the recent list and the symbol is pending. |
| Scan.DifferentSignalsBothRemembered | main.py:405-406 | Two new detections that differ in any key are both appended to the recent list, in order. |
| Scan.OnSignalPreservesValid | main.py:404-410 | Recording a detection keeps recent signals pairwise distinct and pending symbols unique. |
| Scan.LookupAppended | main.py:408-410 | A symbol pending only in the appended entry is found there. |
| Scan.FirstPendingWins | main.py:408-410 | Once a symbol is pending, a second detection on it leaves the book unchanged, and the symbol still maps to the first signal. |
| History.Alternatives | main.py:253-263 | At most two alternative symbols are tried, each containing `/` and differing from the stored symbol. A symbol with `/` gets alternatives only when it has no `:`. A symbol with neither `/` nor a `USDT` suffix gets none. |
| History.FirstAvailable | main.py:260-263 | Returns the first alternative in the available set, with none of the earlier alternatives available. It returns nothing exactly when no alternative is available. |
| History.Normalize | main.py:252-265 | The result is always an available symbol. An available symbol is returned unchanged. Otherwise the result is the first available alternative: `sym:USDT` for a symbol with `/` and no `:`; `base/USDT:USDT` and then `base/USDT` for a symbol without `/` ending in `USDT`; none otherwise. |
| History.NormalizeIdempotent | main.py:252-265 | Normalizing a normalized symbol returns it unchanged. |
| History.SwapFormPreferred | main.py:258-263 | For `BASEUSDT` not listed as stored, `BASE/USDT:USDT` is chosen whenever it exists, even when `BASE/USDT` exists too. |
| History.SlashSymbolTriesSwapOnly | main.py:253-257 | A stored `X/Y` without `:` that is not listed becomes `X/Y:USDT` when that is listed and is dropped otherwise. |
| History.SpotFormFallback | main.py:258-264 | A stored `BASEUSDT` becomes `BASE/USDT` when neither it nor `BASE/USDT:USDT` is listed, and is dropped when `BASE/USDT` is not listed either. |
| History.UnshapedSymbolDropped | main.py:253-265 | A stored symbol with neither `/` nor a `USDT` suffix that is not available is dropped. |
| History.ColonSymbolDropped | main.py:253-265 | A stored symbol with `:` and `/` that is not available is dropped. |
| History.Collect | main.py:246-265 | Every collected symbol is available and is the available form of some non-empty stored symbol. The available form of every non-empty stored symbol that has one is collected. |
| History.SwapMarkets | main.py:268 | At most `limit` symbols are returned, all listed and ending in `:USDT`. When fewer than `limit` are returned, every listed swap market is among them. |
| History.Candidates | main.py:246-268 | Every candidate is available. The candidates are the collected symbols when there are any. Otherwise there are at most ten candidates, all swap markets. |
| History.Field.Get | main.py:293-298 | Reading a key with a default gives the default only when the key is missing. A null value reads as null, and a present value as itself. |
| History.Opening | main.py:291-299 | A new order's line starts with zero cost, amount and PnL. Symbol, side and timestamp come from the fill: `N/A`, an empty side and 0 when the key is missing, null when the value is null. |
| History.Absorb | main.py:287-309 | A fill without a key changes nothing. Otherwise its order's key is added if new, and no other line changes. Its cost, amount and PnL are added to its line. Symbol, side and timestamp are kept for a known order and taken from the fill for a new one. |
| History.OrderKey | main.py:288-290 | The key is never empty. A non-empty `order` field takes precedence; otherwise a non-empty `id` is used. There is no key exactly when both are missing or empty. |
| History.PnlOf | main.py:302-309 | `realizedPnl` is used when present. `profit` is used only when `realizedPnl` is absent. An unparseable value adds 0. |
| History.FirstFill | main.py:291-299 | The fill found for an order carries that order's key and sits at an index before which no fill of that order occurs. Nothing is found exactly when no fill carries the key. |
| History.OrdersSnoc | main.py:287-291 | Appending a fill adds its key, if it has one, to the set of orders. |
| History.TotalSnoc | main.py:300-309 | Appending a fill adds its value to its own order's sum and leaves every other order's sum as it was. |
| History.FirstFillSnoc | main.py:291-299 | Appending a fill keeps an order's first fill; the appended fill becomes the first fill only of its own order when that order had none. |
| History.LineUnaffected | main.py:287-309 | A fill of another order leaves an order's line correct. |
| History.LineExtended | main.py:300-309 | A further fill of an order adds its cost, amount and PnL to the order's line and keeps symbol, side and timestamp. |
| History.LineOpened | main.py:291-309 | The first fill of a new order opens a line with its symbol, side and timestamp and its own cost, amount and PnL. |
| History.AbsorbStep | main.py:287-309 | One loop iteration extends the per-order summary of a prefix of the fills to the next prefix. |
| History.AggregateOrders | main.py:286-309 | There is one line per order key present, and fills with neither `order` nor `id` are skipped. Cost, amount and PnL are the sums over the order's fills. Symbol, side and timestamp come from its first fill. They default to `N/A`, an empty side and 0 when the key is missing, and stay null when the value is null. |
| Commands.ParseInt | main.py:335 | A successful parse implies a non-empty argument made only of digits and underscores, with an optional leading sign, and ending in a digit. A leading `-` gives a non-positive value, and anything else a non-negative one. A non-empty all-digit argument is accepted, with its decimal value. |
| Commands.ParseIntRejects | main.py:335-338 | Letters, an empty argument, a bare sign and doubled, leading or trailing underscores are rejected. |
| Commands.ParseIntAccepts | main.py:335 | `+5`, `-0`, `007` and `1_000` parse to 5, 0, 7 and 1000. |
| Commands.ParseShow | main.py:335-336 | `int(str(n)) == n` for every integer. |
| Commands.SetAtLeast | main.py:332-345 | The setting is written exactly when an argument is given, parses, and is at least the bound. In that case only that key changes, to the parsed value. Otherwise the settings are unchanged, with the usage reply exactly when the argument is missing and the invalid-value reply exactly when it does not parse. |
| Commands.SetUniverse | main.py:332-338 | `/setuniverse` stores only values > 0. A parsed value ≤ 0 is rejected, and the settings stay the same. |
| Commands.SetMaxPositions | main.py:339-345 | `/setmaxpos` stores only values ≥ 0. A parsed negative value is rejected, and the settings stay the same. |
| Commands.CommandsStoreWrittenNumber | main.py:332-345 | `/setuniverse n` stores n exactly when n > 0, and `/setmaxpos n` exactly when n ≥ 0. Otherwise the settings are unchanged. |
| Reporting.Wins | reporting.py:10 | The winners form a list no longer than the trade list. |
| Reporting.Losses | reporting.py:11 | The losers form a list no longer than the trade list; LossesExactly pins its members. |
| Reporting.WinsExactly | reporting.py:10 | A trade is a win exactly when its PnL is > 0. |
| Reporting.LossesExactly | reporting.py:11 | A trade is a loss exactly when its PnL is < 0. |
| Reporting.CountPartition | reporting.py:10-14 | Wins, losses and zero-PnL trades partition the trades, so nb_wins + nb_losses ≤ total_trades. |
| Reporting.GrossSigns | reporting.py:19-20 | Winners sum to a value ≥ 0, and losers to a value ≤ 0. |
| Reporting.GrossProfitPositive | reporting.py:19-22 | With at least one win, the gross profit is > 0. |
| Reporting.GrossLossPositive | reporting.py:20-25 | With at least one loss, the gross loss is > 0. |
| Reporting.NetIsProfitMinusLoss | reporting.py:18-20 | total_pnl = gross_profit − gross_loss, and both gross values are ≥ 0. |
| Reporting.WinRate | reporting.py:16 | Win rate × total = wins × 100, and the rate lies in [0, 100]. It is 0 with no trades. |
| Reporting.Average | reporting.py:22-23 | The average is 0 for a count of 0. Otherwise average × count = amount, and the average is positive when the amount is. |
| Reporting.Factor | reporting.py:25 | The factor is infinite exactly when the gross loss is ≤ 0. Otherwise factor × gross loss = gross profit. |
| Reporting.ReportStats | reporting.py:4-36 | An empty list gives the `{"total_trades": 0}` result and nothing else. Otherwise: the win and loss counts; the win rate in [0, 100]; net PnL = gross profit − gross loss; averages that are 0 exactly when there are no wins or losses; and a profit factor that is infinite exactly when the gross loss is 0 and otherwise equals gross profit / gross loss. |
| Reporting.FormatReport | reporting.py:38-59 | The "no closed trades" message is returned exactly when total_trades is 0. An infinite profit factor is rendered as "Infini (aucune perte)", and a finite one with two decimals. |
| Reporting.ReportOnTrades | reporting.py:4-47 | Over trades, the "no closed trades" message appears exactly for the empty list. The infinite label appears exactly when there are trades and none lost money. |
| Reporting.ProfitableCloseIsWin | database.py:64-66 | A buy closed above a positive entry price with positive size is reported as one win with a 100 % win rate and an infinite profit factor. |
| Database.Truncate | database.py:68 | `int()` of a clock reading truncates toward zero and is within one second of it. |
| Database.FloorDiv | database.py:69 | `//` by a positive divisor: q·b ≤ a < q·b + b. |
| Database.ClosePnl | database.py:64 | pnl = (exit − entry)·qty for `buy`, and the exact negation for any other side. |
| Database.ClosePnlSidesOpposite | database.py:64 | A non-buy side books exactly the negated buy PnL. |
| Database.PnlPercent | database.py:65-66 | pnl_percent × notional = pnl × 100 when the notional entry·qty is > 0. Otherwise pnl_percent is 0. |
| Database.BuyPnlSign | database.py:64-66 | For a buy with positive price and size, pnl and pnl_percent are positive (negative) exactly when the exit is above (below) the entry. |
| Database.DurationMinutes | database.py:68-69 | duration·60 ≤ close − open < duration·60 + 60: whole minutes, rounded down. |
| Database.CreateTrade | database.py:39-56 | A new row is added under a fresh id with status `OPEN`. The whole row is stated: the given symbol, side, regime, prices, quantity, risk, strategy, ATR and RSI; breakeven `PENDING`; zero PnL and PnL percentage; the open time as whole seconds; no close time, duration or drawdown. Existing rows are untouched. |
| Database.CloseTrade | database.py:58-73 | An unknown id leaves the store unchanged. Otherwise only status, pnl, pnl_percent, close_timestamp and duration_minutes of that row change, to the values above. Every other column and row is untouched. |
| Database.CloseTradePreservesValid | database.py:58-73 | Closing keeps every row under its own id. |

## Findings

| source | as written | input that shows it | evidently intended | confidence | as-written member | corrected member |
|---|---|---|---|---|---|---|
| main.py:96-101 | `get_recent_signals_message(hours)` prunes the shared recent list with the window it is asked to display. | A signal detected two hours ago; `/signals` (1 h), then `/recent` (6 h): the second shows nothing. | Prune to the 6-hour retention window used by the trading loop, and restrict only the reply to `hours`. | medium, not executed | Recent.OneHourListingLosesRecentSignal | Recent.RecentMessageKeepsRetention |

## Left out

- Exchange access (ccxt), Telegram polling and sending, the two threads, `_lock` and the sleep loops are I/O and concurrency. Downloads and clock readings are parameters, and the shared lists are explicit state.
- SQLite plumbing (connections, schema creation, `get_trade_by_id` and the other queries) is I/O. The trade table is a map from id to row.
- The candle frame stored with each pending signal and passed to `execute_trade` is left out. `detect_signal`, `execute_trade`, `manage_open_positions` and `_get_indicators` are not part of this model. `SelectBest` returns the choice instead of trading it.
- In the source, a detection that is both appended to the recent list and made pending shares one signal dictionary between the two. Re-validation therefore also rewrites the tp, ratio, entry and symbol of that recent entry. The model keeps the two copies separate, because that aliasing is a property of Python object identity.
- History.AggregateOrders: the sort of the lines by timestamp that follows the aggregation is not modelled, so its TypeError on a null timestamp is not either. The model keeps the null in the line.
- Floating-point rounding, NaN and infinity arithmetic are left out. Reals are exact, and `float('inf')` is a datatype variant.
- Message text is left out: emoji, timezone and date formatting, `:.2f` rendering, the `tabulate` table, and the sorting of orders by timestamp with its last-15 cut. The models return the reply's data and its branch.
- The rest of `/history` is left out: `sorted(set(candidate_symbols))`, the per-symbol fetch and its error messages. These are I/O around the modelled candidate list.
- Commands.ParseInt: non-ASCII Unicode digits, which Python's `int()` also accepts, are not modelled. Surrounding whitespace cannot occur, because the message has already been split on whitespace.
- History.Candidates: the fallback is stated as at most ten swap markets in the set's iteration order (`History.SwapMarkets`). Python's set order is an input, not a known order.
- The other commands and callbacks (`/pause`, `/pos`, `/stats`, strategy and mode switches), the startup ghost-position check, `build_universe` and the scheduled reports are left out. They only move data between the exchange, the database and Telegram.
- `state.py` is a corrupted file; its only code is the empty pending dictionary, which is modelled as the empty `Pending.Book`.

=== FILE: commands.dfy ===
/** The numeric settings commands of the Telegram bot (main.py):
    `/setuniverse <n>` stores the number of pairs to scan and accepts only
    n > 0; `/setmaxpos <n>` stores the maximum number of open positions and
    accepts n >= 0. The argument is read with Python's `int()`. */
module Commands {
  import opened Wrappers

  predicate IsDigit(c: char) {
    '0' <= c <= '9'
  }

  function DigitValue(c: char): nat
    requires IsDigit(c)
  {
    (c as int - '0' as int) as nat
  }

  function DigitChar(d: nat): (c: char)
    requires d < 10
    ensures IsDigit(c) && DigitValue(c) == d
  {
    ('0' as int + d) as char
  }

  /** The digit part `int()` accepts: ASCII digits, where single underscores
      may separate two digits. */
  predicate ValidDigits(t: string) {
    && |t| > 0
    && IsDigit(t[0])
    && IsDigit(t[|t| - 1])
    && (forall i :: 0 <= i < |t| ==> IsDigit(t[i]) || t[i] == '_')
    && (forall i :: 0 <= i < |t| - 1 && t[i] == '_' ==> t[i + 1] != '_')
  }

  /** The value of a digit string, underscores ignored. */
  function DigitsValue(t: string): nat
    requires forall i :: 0 <= i < |t| ==> IsDigit(t[i]) || t[i] == '_'
  {
    if t == [] then 0
    else
      var last := t[|t| - 1];
      if last == '_' then DigitsValue(t[..|t| - 1])
      else DigitsValue(t[..|t| - 1]) * 10 + DigitValue(last)
  }

  /** Python's `int(s)` on a string already stripped of whitespace: an
      optional sign, then digits; anything else raises `ValueError`, which
      is `None` here. */
  function ParseInt(s: string): (r: Option<int>)
    ensures r.Some? ==> |s| > 0
    ensures r.Some? && s[0] == '-' ==> r.value <= 0
    ensures r.Some? && s[0] != '-' ==> r.value >= 0
    ensures r.Some? ==>
      forall i :: 0 <= i < |s| ==> IsDigit(s[i]) || s[i] == '_' || (i == 0 && (s[i] == '+' || s[i] == '-'))
    ensures r.Some? ==> IsDigit(s[|s| - 1])
    ensures |s| > 0 && (forall i :: 0 <= i < |s| ==> IsDigit(s[i])) ==> r == Some(DigitsValue(s) as int)
  {
    var negative := |s| > 0 && s[0] == '-';
    var digits := if |s| > 0 && (s[0] == '-' || s[0] == '+') then s[1..] else s;
    assert |s| > 0 && (s[0] == '-' || s[0] == '+') ==> forall i :: 1 <= i < |s| ==> s[i] == s[1..][i - 1];
    if ValidDigits(digits) then
      Some(if negative then -(DigitsValue(digits) as int) else DigitsValue(digits))
    else None
  }

  /** Arguments `int()` rejects: letters, nothing, a bare sign, and doubled,
      leading or trailing underscores. */
  lemma ParseIntRejects()
    ensures ParseInt("abc").None? && ParseInt("").None? && ParseInt("-").None?
    ensures ParseInt("1__0").None? && ParseInt("_1").None? && ParseInt("1_").None?
  {
  }

  /** Arguments `int()` accepts: a sign, leading zeros and single
      underscores between digits. */
  lemma ParseIntAccepts()
    ensures ParseInt("+5") == Some(5) && ParseInt("-0") == Some(0)
    ensures ParseInt("007") == Some(7) && ParseInt("1_000") == Some(1000)
  {
    assert "+5"[1..] == "5" && DigitsValue("5") == 5 by { assert "5"[..0] == ""; }
    assert "-0"[1..] == "0" && DigitsValue("0") == 0 by { assert "0"[..0] == ""; }
    assert DigitsValue("007") == 7 by {
      assert "007"[..2] == "00" && "00"[..1] == "0" && "0"[..0] == "";
    }
    assert ValidDigits("1_000");
    assert DigitsValue("1_000") == 1000 by {
      assert "1_000"[..4] == "1_00" && "1_00"[..3] == "1_0" && "1_0"[..2] == "1_";
      assert "1_"[..1] == "1" && "1"[..0] == "";
    }
  }

  /** The decimal digits of `n`, most significant first. */
  function ShowNat(n: nat): (t: string)
    ensures |t| > 0 && forall i :: 0 <= i < |t| ==> IsDigit(t[i])
  {
    if n < 10 then [DigitChar(n)] else ShowNat(n / 10) + [DigitChar(n % 10)]
  }

  /** `str(n)` */
  function Show(n: int): string {
    if n < 0 then "-" + ShowNat(-n) else ShowNat(n)
  }

  lemma {:induction false} ShowNatValue(n: nat)
    ensures ValidDigits(ShowNat(n))
    ensures DigitsValue(ShowNat(n)) == n
  {
    var t := ShowNat(n);
    if n >= 10 {
      ShowNatValue(n / 10);
      assert t[..|t| - 1] == ShowNat(n / 10);
    }
  }

  /** `int(str(n)) == n`: the parser reads back every printed integer. */
  lemma ParseShow(n: int)
    ensures ParseInt(Show(n)) == Some(n)
  {
    var s := Show(n);
    if n < 0 {
      var t := ShowNat(-n);
      ShowNatValue(-n);
      assert s == "-" + t;
      assert s[0] == '-';
      assert s[1..] == t;
    } else {
      ShowNatValue(n);
      assert IsDigit(s[0]);
    }
  }

  /** A stored setting, as the two commands write it. */
  datatype Setting = Number(n: int)

  type Settings = map<string, Setting>

  const UNIVERSE_SIZE := "UNIVERSE_SIZE"
  const MAX_OPEN_POSITIONS := "MAX_OPEN_POSITIONS"

  /** What the bot answers. */
  datatype Reply = Usage | Updated(value: int) | OutOfRange | InvalidValue

  /** The shared shape of both commands: `parts` is the whitespace-split
      message; the setting `key` is written only when an argument is given,
      parses as an integer, and is at least `least`; otherwise the settings
      are unchanged. */
  function SetAtLeast(parts: seq<string>, settings: Settings, key: string, least: int)
    : (r: (Settings, Reply))
    ensures r.1.Updated? <==> |parts| >= 2 && ParseInt(parts[1]).Some? && ParseInt(parts[1]).value >= least
    ensures r.1.Updated? ==> r.1.value == ParseInt(parts[1]).value && r.0 == settings[key := Number(r.1.value)]
    ensures !r.1.Updated? ==> r.0 == settings
    ensures r.1 == Usage <==> |parts| < 2
    ensures r.1 == InvalidValue <==> |parts| >= 2 && ParseInt(parts[1]).None?
  {
    if |parts| < 2 then (settings, Usage)
    else
      match ParseInt(parts[1])
      case None => (settings, InvalidValue)
      case Some(n) =>
        if n >= least then (settings[key := Number(n)], Updated(n))
        else (settings, OutOfRange)
  }

  /** `/setuniverse <n>`: stored only when n > 0. */
  function SetUniverse(parts: seq<string>, settings: Settings): (r: (Settings, Reply))
    ensures r.1.Updated? ==> r.1.value > 0 && r.0 == settings[UNIVERSE_SIZE := Number(r.1.value)]
    ensures !r.1.Updated? ==> r.0 == settings
    ensures |parts| >= 2 && ParseInt(parts[1]).Some? && ParseInt(parts[1]).value <= 0 ==> r.1 == OutOfRange
  {
    SetAtLeast(parts, settings, UNIVERSE_SIZE, 1)
  }

  /** `/setmaxpos <n>`: stored only when n >= 0. */
  function SetMaxPositions(parts: seq<string>, settings: Settings): (r: (Settings, Reply))
    ensures r.1.Updated? ==> r.1.value >= 0 && r.0 == settings[MAX_OPEN_POSITIONS := Number(r.1.value)]
    ensures !r.1.Updated? ==> r.0 == settings
    ensures |parts| >= 2 && ParseInt(parts[1]).Some? && ParseInt(parts[1]).value < 0 ==> r.1 == OutOfRange
  {
    SetAtLeast(parts, settings, MAX_OPEN_POSITIONS, 0)
  }

  /** End to end: `/setuniverse n` with `n` written out stores `n` exactly
      when n > 0, and `/setmaxpos n` exactly when n >= 0. */
  lemma CommandsStoreWrittenNumber(n: int, settings: Settings)
    ensures SetUniverse(["/setuniverse", Show(n)], settings).0
            == (if n > 0 then settings[UNIVERSE_SIZE := Number(n)] else settings)
    ensures SetMaxPositions(["/setmaxpos", Show(n)], settings).0
            == (if n >= 0 then settings[MAX_OPEN_POSITIONS := Number(n)] else settings)
  {
    ParseShow(n);
  }
}

=== FILE: database.dfy ===
/** The `trades` table of the bot's SQLite store (database.py), as an
    immutable map from row id to row. Only the two writes that carry logic
    are modelled: inserting a new trade and closing an existing one. */
module Database {
  import opened Wrappers

  /** One row of the `trades` table; nullable columns are `Option`s. */
  datatype Trade = Trade(
    id: nat,
    symbol: string,
    side: string,
    regime: string,
    status: string,
    entryPrice: real,
    slPrice: real,
    tpPrice: real,
    quantity: real,
    riskPercent: real,
    managementStrategy: string,
    breakevenStatus: string,
    pnl: real,
    pnlPercent: real,
    openTimestamp: int,
    closeTimestamp: Option<int>,
    durationMinutes: Option<int>,
    maxDrawdown: Option<real>,
    entryAtr: real,
    entryRsi: real)

  /** The table, plus the AUTOINCREMENT counter: the next id SQLite hands out. */
  datatype Store = Store(trades: map<nat, Trade>, nextId: nat)

  /** Every row sits under its own id, and every id is below the counter. */
  ghost predicate Valid(s: Store) {
    forall k :: k in s.trades ==> k < s.nextId && s.trades[k].id == k
  }

  const OPEN := "OPEN"

  /** Python's `int(x)` on a float: truncation toward zero. */
  function Truncate(x: real): (r: int)
    ensures x >= 0.0 ==> r as real <= x < r as real + 1.0
    ensures x < 0.0 ==> r as real - 1.0 < x <= r as real
  {
    if x >= 0.0 then x.Floor else -((-x).Floor)
  }

  /** Python's `a // b` for a positive divisor rounds toward minus infinity,
      which is what Dafny's Euclidean `/` does for a positive divisor. */
  function FloorDiv(a: int, b: int): (q: int)
    requires b > 0
    ensures q * b <= a < q * b + b
  {
    a / b
  }

  /** Realized profit of a trade closed at `exitPrice`: long positions gain
      when the price rises, every other side gains when it falls. */
  function ClosePnl(side: string, entry: real, exitPrice: real, quantity: real): (pnl: real)
    ensures side == "buy" ==> pnl == (exitPrice - entry) * quantity
    ensures side != "buy" ==> pnl == -((exitPrice - entry) * quantity)
  {
    if side == "buy" then (exitPrice - entry) * quantity else (entry - exitPrice) * quantity
  }

  /** Profit as a percentage of the position's notional value; 0 when that
      value is not positive (which also avoids a division by zero). */
  function PnlPercent(pnl: real, entry: real, quantity: real): (pct: real)
    ensures entry * quantity > 0.0 ==> pct * (entry * quantity) == pnl * 100.0
    ensures entry * quantity <= 0.0 ==> pct == 0.0
  {
    var positionValue := entry * quantity;
    if positionValue > 0.0 then (pnl / positionValue) * 100.0 else 0.0
  }

  /** Whole minutes between opening and closing, rounded down. */
  function DurationMinutes(openTs: int, closeTs: int): (d: int)
    ensures d * 60 <= closeTs - openTs < d * 60 + 60
  {
    FloorDiv(closeTs - openTs, 60)
  }

  /** `create_trade`: inserts a row with status OPEN, the schema's defaults
      for every column the INSERT does not name, and the current time
      (`clock`, seconds since the epoch) truncated to whole seconds. */
  function CreateTrade(s: Store, symbol: string, side: string, regime: string,
                       entryPrice: real, slPrice: real, tpPrice: real, quantity: real,
                       riskPercent: real, managementStrategy: string,
                       entryAtr: real, entryRsi: real, clock: real): (r: Store)
    requires Valid(s)
    ensures Valid(r)
    ensures s.nextId !in s.trades && r.trades.Keys == s.trades.Keys + {s.nextId}
    ensures forall k :: k in s.trades ==> r.trades[k] == s.trades[k]
    ensures r.trades[s.nextId] ==
      Trade(s.nextId, symbol, side, regime, OPEN, entryPrice, slPrice, tpPrice, quantity,
            riskPercent, managementStrategy, "PENDING", 0.0, 0.0, Truncate(clock),
            None, None, None, entryAtr, entryRsi)
  {
    var t := Trade(s.nextId, symbol, side, regime, OPEN, entryPrice, slPrice, tpPrice,
                   quantity, riskPercent, managementStrategy, "PENDING", 0.0, 0.0,
                   Truncate(clock), None, None, None, entryAtr, entryRsi);
    Store(s.trades[s.nextId := t], s.nextId + 1)
  }

  /** The columns `close_trade` writes. Two rows agree on everything else. */
  predicate SameExceptClose(a: Trade, b: Trade) {
    a.(status := b.status, pnl := b.pnl, pnlPercent := b.pnlPercent,
       closeTimestamp := b.closeTimestamp, durationMinutes := b.durationMinutes) == b
  }

  /** `close_trade`: an unknown id changes nothing; otherwise the row gets the
      new status, its PnL and PnL percent at `exitPrice`, the closing time and
      the whole minutes it was open, and nothing else in the table changes. */
  function CloseTrade(s: Store, tradeId: nat, status: string, exitPrice: real, clock: real): (r: Store)
    ensures tradeId !in s.trades ==> r == s
    ensures r.nextId == s.nextId && r.trades.Keys == s.trades.Keys
    ensures forall k :: k in s.trades && k != tradeId ==> r.trades[k] == s.trades[k]
    ensures tradeId in s.trades ==>
      var t, u := s.trades[tradeId], r.trades[tradeId];
      && SameExceptClose(t, u)
      && u.status == status
      && u.pnl == ClosePnl(t.side, t.entryPrice, exitPrice, t.quantity)
      && u.pnlPercent == PnlPercent(u.pnl, t.entryPrice, t.quantity)
      && u.closeTimestamp == Some(Truncate(clock))
      && u.durationMinutes == Some(DurationMinutes(t.openTimestamp, Truncate(clock)))
  {
    if tradeId !in s.trades then s
    else
      var t := s.trades[tradeId];
      var pnl := ClosePnl(t.side, t.entryPrice, exitPrice, t.quantity);
      var pct := PnlPercent(pnl, t.entryPrice, t.quantity);
      var closeTs := Truncate(clock);
      var u := t.(status := status, pnl := pnl, pnlPercent := pct,
                  closeTimestamp := Some(closeTs),
                  durationMinutes := Some(DurationMinutes(t.openTimestamp, closeTs)));
      s.(trades := s.trades[tradeId := u])
  }

  /** Closing keeps the store well formed. */
  lemma CloseTradePreservesValid(s: Store, tradeId: nat, status: string, exitPrice: real, clock: real)
    requires Valid(s)
    ensures Valid(CloseTrade(s, tradeId, status, exitPrice, clock))
  {
  }

  /** A buy and any other side closed at the same prices book exactly
      opposite profits. */
  lemma ClosePnlSidesOpposite(side: string, entry: real, exitPrice: real, quantity: real)
    requires side != "buy"
    ensures ClosePnl(side, entry, exitPrice, quantity) == -ClosePnl("buy", entry, exitPrice, quantity)
  {
  }

  /** For a long position of positive size and price, the profit and its
      percentage have the same sign, which is the sign of the price move. */
  lemma BuyPnlSign(entry: real, exitPrice: real, quantity: real)
    requires entry > 0.0 && quantity > 0.0
    ensures var pnl := ClosePnl("buy", entry, exitPrice, quantity);
            && (pnl > 0.0 <==> exitPrice > entry)
            && (PnlPercent(pnl, entry, quantity) > 0.0 <==> exitPrice > entry)
            && (PnlPercent(pnl, entry, quantity) < 0.0 <==> exitPrice < entry)
  {
  }
}

=== FILE: history.dfy ===
/** The pure parts of the `/history` command (main.py): mapping the symbols
    stored in the database to the exchange's market symbols, and summing
    the exchange's fills per order. */
module History {
  import opened Wrappers

  predicate EndsWith(s: string, suffix: string) {
    |suffix| <= |s| && s[|s| - |suffix|..] == suffix
  }

  /** The swap-market form of a symbol that already has a quote currency. */
  function SwapForm(sym: string): string {
    sym + ":USDT"
  }

  /** `sym` without its last four characters (the `USDT` suffix). */
  function Base(sym: string): string
    requires |sym| >= 4
  {
    sym[..|sym| - 4]
  }

  /** The alternatives tried, in order, for a symbol that is not available
      as stored. */
  function Alternatives(sym: string): (alts: seq<string>)
    ensures |alts| <= 2
    ensures alts != [] && '/' in sym ==> ':' !in sym
    ensures '/' !in sym && !EndsWith(sym, "USDT") ==> alts == []
    ensures forall i :: 0 <= i < |alts| ==> '/' in alts[i] && alts[i] != sym
  {
    if ':' !in sym && '/' in sym then [SwapForm(sym)]
    else if '/' !in sym && EndsWith(sym, "USDT") then
      [Base(sym) + "/USDT:USDT", Base(sym) + "/USDT"]
    else []
  }

  /** The first alternative that is available, if any. */
  function FirstAvailable(alts: seq<string>, available: set<string>): (r: Option<string>)
    ensures r.Some? ==> r.value in alts && r.value in available
    ensures r.None? <==> forall i :: 0 <= i < |alts| ==> alts[i] !in available
    ensures r.Some? ==>
      exists i :: 0 <= i < |alts| && alts[i] == r.value && (forall j :: 0 <= j < i ==> alts[j] !in available)
  {
    if alts == [] then None
    else if alts[0] in available then Some(alts[0])
    else
      var r := FirstAvailable(alts[1..], available);
      if r.Some? then
        var i :| 0 <= i < |alts[1..]| && alts[1..][i] == r.value
                 && forall j :: 0 <= j < i ==> alts[1..][j] !in available;
        assert alts[i + 1] == r.value;
        r
      else r
  }

  /** The market symbol a stored symbol is looked up under, or `None` when
      neither it nor its alternatives are listed. An available symbol is kept
      as it is; a symbol with a `/` and no `:` is only tried in its swap form
      `sym:USDT`; a symbol without `/` that ends in `USDT` is tried as
      `base/USDT:USDT` and then as `base/USDT`. */
  function Normalize(sym: string, available: set<string>): (r: Option<string>)
    ensures r.Some? ==> r.value in available
    ensures sym in available ==> r == Some(sym)
    ensures sym !in available ==> r == FirstAvailable(Alternatives(sym), available)
  {
    if sym in available then Some(sym)
    else FirstAvailable(Alternatives(sym), available)
  }

  /** Normalizing a normalized symbol changes nothing. */
  lemma NormalizeIdempotent(sym: string, available: set<string>)
    ensures var r := Normalize(sym, available);
            r.Some? ==> Normalize(r.value, available) == r
  {
  }

  /** The swap form wins: a stored `BASEUSDT` goes to `BASE/USDT:USDT`
      whenever that market exists, even when `BASE/USDT` exists too. */
  lemma SwapFormPreferred(base: string, available: set<string>)
    requires '/' !in base
    requires base + "USDT" !in available
    requires base + "/USDT:USDT" in available
    ensures Normalize(base + "USDT", available) == Some(base + "/USDT:USDT")
  {
  }

  /** A stored symbol with a `/` and no `:` that is not available is only
      tried in its swap form. */
  lemma SlashSymbolTriesSwapOnly(sym: string, available: set<string>)
    requires '/' in sym && ':' !in sym && sym !in available
    ensures Normalize(sym, available) ==
      if sym + ":USDT" in available then Some(sym + ":USDT") else None
  {
  }

  /** A stored `BASEUSDT` goes to the spot market `BASE/USDT` when neither it
      nor the swap form `BASE/USDT:USDT` is listed, and is dropped when
      `BASE/USDT` is not listed either. */
  lemma SpotFormFallback(base: string, available: set<string>)
    requires '/' !in base
    requires base + "USDT" !in available
    requires base + "/USDT:USDT" !in available
    ensures Normalize(base + "USDT", available) ==
      if base + "/USDT" in available then Some(base + "/USDT") else None
  {
    var sym := base + "USDT";
    assert Base(sym) == base;
    var alts := Alternatives(sym);
    assert alts == [base + "/USDT:USDT", base + "/USDT"];
    assert FirstAvailable(alts, available) == FirstAvailable(alts[1..], available);
    assert FirstAvailable(alts[1..][1..], available) == None;
  }

  /** A stored symbol with neither a `/` nor the `USDT` suffix has no
      alternative, so it is dropped when it is not listed itself. */
  lemma UnshapedSymbolDropped(sym: string, available: set<string>)
    requires '/' !in sym && !EndsWith(sym, "USDT") && sym !in available
    ensures Normalize(sym, available) == None
  {
  }

  /** A stored symbol with a `:` but not available is dropped. */
  lemma ColonSymbolDropped(sym: string, available: set<string>)
    requires ':' in sym && '/' in sym && sym !in available
    ensures Normalize(sym, available) == None
  {
  }

  /** The symbols to query: the available forms of the stored symbols (a
      `None` stands for a row without a symbol; an empty symbol is skipped
      too), in order, duplicates kept. */
  function Collect(stored: seq<Option<string>>, available: set<string>): (r: seq<string>)
    ensures |r| <= |stored|
    ensures forall s :: s in r ==> s in available
    ensures forall i ::
      (0 <= i < |stored| && stored[i].Some? && stored[i].value != "" && Normalize(stored[i].value, available).Some?)
      ==> Normalize(stored[i].value, available).value in r
    ensures forall s :: s in r ==>
      exists i :: 0 <= i < |stored| && stored[i].Some? && stored[i].value != ""
                  && Normalize(stored[i].value, available) == Some(s)
  {
    if stored == [] then []
    else
      var rest := Collect(stored[1..], available);
      var head := if stored[0].Some? && stored[0].value != "" then
                    match Normalize(stored[0].value, available)
                    case Some(n) => [n]
                    case None => []
                  else [];
      assert forall i :: 1 <= i < |stored| ==> stored[i] == stored[1..][i - 1];
      head + rest
  }

  /** At most this many fallback symbols are queried. */
  const FALLBACK_LIMIT := 10

  /** The first `limit` of the listed symbols that are swap markets. */
  function SwapMarkets(order: seq<string>, limit: nat): (r: seq<string>)
    ensures |r| <= limit
    ensures forall s :: s in r ==> s in order && EndsWith(s, ":USDT")
    ensures |r| < limit ==> forall s :: s in order && EndsWith(s, ":USDT") ==> s in r
  {
    if order == [] || limit == 0 then []
    else if EndsWith(order[0], ":USDT") then [order[0]] + SwapMarkets(order[1..], limit - 1)
    else SwapMarkets(order[1..], limit)
  }

  /** The candidate list of `/history`: the collected symbols, or, when none
      could be matched, up to ten swap markets in the order `order` in which
      the set of available symbols is iterated. */
  function Candidates(stored: seq<Option<string>>, available: set<string>, order: seq<string>): (r: seq<string>)
    requires forall s :: s in order <==> s in available
    ensures forall s :: s in r ==> s in available
    ensures Collect(stored, available) != [] ==> r == Collect(stored, available)
    ensures Collect(stored, available) == [] ==>
      |r| <= FALLBACK_LIMIT && forall s :: s in r ==> EndsWith(s, ":USDT")
  {
    var collected := Collect(stored, available);
    if collected != [] then collected else SwapMarkets(order, FALLBACK_LIMIT)
  }

  /** A PnL field of a fill's raw exchange data: absent (or null), a number
      (or a string that parses as one), or something that does not parse as a number. */
  datatype PnlField = Absent | Number(value: real) | Unparseable

  /** A key of a fill's raw data that is read with a default: missing, present
      with a null value, or present with a value. */
  datatype Field<T> = Missing | Null | Value(value: T) {
    /** Reading the key with a default: the default replaces a missing key
        only; a null value is read as null (`None`). */
    function Get(default: T): (r: Option<T>)
      ensures r.None? <==> Null?
      ensures r.Some? ==> r.value == (if Missing? then default else value)
    {
      match this
      case Missing => Some(default)
      case Null => None
      case Value(v) => Some(v)
    }
  }

  /** One fill as the exchange returns it from `fetch_my_trades`. For the
      identifiers, the cost and the amount, which are read with `or`, `None`
      stands for a missing or null key; empty identifiers count as missing. */
  datatype Fill = Fill(order: Option<string>, id: Option<string>, symbol: Field<string>,
                       side: Field<string>, cost: Option<real>, amount: Option<real>,
                       timestamp: Field<int>, realizedPnl: PnlField, profit: PnlField)

  /** The per-order line of the history table; `None` is a null symbol, side
      or timestamp carried over from the first fill. */
  datatype OrderSummary = OrderSummary(symbol: Option<string>, side: Option<string>, cost: real,
                                       amount: real, pnl: real, timestamp: Option<int>)

  /** The order identifier a fill is grouped under: its `order` field, or
      its own `id` when the order is missing or empty; `None` when both are
      missing or empty. */
  function OrderKey(f: Fill): (k: Option<string>)
    ensures k.Some? ==> k.value != ""
    ensures f.order.Some? && f.order.value != "" ==> k == f.order
    ensures (f.order.None? || f.order.value == "") && f.id.Some? && f.id.value != "" ==> k == f.id
    ensures k.None? <==> (f.order.None? || f.order.value == "") && (f.id.None? || f.id.value == "")
  {
    if f.order.Some? && f.order.value != "" then f.order
    else if f.id.Some? && f.id.value != "" then f.id
    else None
  }

  function CostOf(f: Fill): real {
    f.cost.GetOr(0.0)
  }

  function AmountOf(f: Fill): real {
    f.amount.GetOr(0.0)
  }

  /** The realized PnL, falling back to `profit` only when `realizedPnl` is
      absent; what does not parse counts as 0. */
  function PnlOf(f: Fill): (p: real)
    ensures f.realizedPnl.Number? ==> p == f.realizedPnl.value
    ensures f.realizedPnl.Unparseable? ==> p == 0.0
    ensures f.realizedPnl.Absent? && f.profit.Number? ==> p == f.profit.value
    ensures f.realizedPnl.Absent? && !f.profit.Number? ==> p == 0.0
  {
    var v := if f.realizedPnl.Absent? then f.profit else f.realizedPnl;
    if v.Number? then v.value else 0.0
  }

  /** The line a fill opens when it is the first of its order: zero sums, and
      its symbol, side and timestamp, defaulting to `N/A`, an empty side and 0
      when the key is missing and kept null when the value is null. */
  function Opening(f: Fill): (o: OrderSummary)
    ensures o.cost == 0.0 && o.amount == 0.0 && o.pnl == 0.0
    ensures f.symbol.Missing? ==> o.symbol == Some("N/A")
    ensures f.side.Missing? ==> o.side == Some("")
    ensures f.timestamp.Missing? ==> o.timestamp == Some(0)
    ensures o.symbol.None? <==> f.symbol.Null?
    ensures o.side.None? <==> f.side.Null?
    ensures o.timestamp.None? <==> f.timestamp.Null?
    ensures f.symbol.Value? ==> o.symbol == Some(f.symbol.value)
    ensures f.side.Value? ==> o.side == Some(f.side.value)
    ensures f.timestamp.Value? ==> o.timestamp == Some(f.timestamp.value)
  {
    OrderSummary(f.symbol.Get("N/A"), f.side.Get(""), 0.0, 0.0, 0.0, f.timestamp.Get(0))
  }

  /** The order identifiers appearing in `fs`. */
  function Orders(fs: seq<Fill>): set<string> {
    if fs == [] then {}
    else
      var last := fs[|fs| - 1];
      Orders(fs[..|fs| - 1]) + (if OrderKey(last).Some? then {OrderKey(last).value} else {})
  }

  /** The first fill of order `k` in `fs`. */
  function FirstFill(fs: seq<Fill>, k: string): (r: Option<Fill>)
    ensures r.Some? ==> r.value in fs && OrderKey(r.value) == Some(k)
    ensures r.Some? ==>
      exists i :: 0 <= i < |fs| && fs[i] == r.value && forall j :: 0 <= j < i ==> OrderKey(fs[j]) != Some(k)
    ensures r.None? <==> forall i :: 0 <= i < |fs| ==> OrderKey(fs[i]) != Some(k)
  {
    if fs == [] then None
    else
      var earlier := FirstFill(fs[..|fs| - 1], k);
      if earlier.Some? then earlier
      else if OrderKey(fs[|fs| - 1]) == Some(k) then Some(fs[|fs| - 1])
      else None
  }

  /** The sum of `value` over the fills of order `k`. */
  function Total(fs: seq<Fill>, k: string, value: Fill -> real): real {
    if fs == [] then 0.0
    else
      var last := fs[|fs| - 1];
      Total(fs[..|fs| - 1], k, value) + (if OrderKey(last) == Some(k) then value(last) else 0.0)
  }

  /** `line` is the summary of order `k` over `fs`: symbol, side and
      timestamp from the order's first fill, cost, amount and PnL summed over
      all its fills. */
  ghost predicate LineMatches(fs: seq<Fill>, k: string, line: OrderSummary) {
    && FirstFill(fs, k).Some?
    && line.symbol == Opening(FirstFill(fs, k).value).symbol
    && line.side == Opening(FirstFill(fs, k).value).side
    && line.timestamp == Opening(FirstFill(fs, k).value).timestamp
    && line.cost == Total(fs, k, CostOf)
    && line.amount == Total(fs, k, AmountOf)
    && line.pnl == Total(fs, k, PnlOf)
  }

  /** `orders` holds exactly one matching line per order of `fs`. */
  ghost predicate Summarizes(fs: seq<Fill>, orders: map<string, OrderSummary>) {
    && orders.Keys == Orders(fs)
    && forall k :: k in orders ==> LineMatches(fs, k, orders[k])
  }

  /** Adds a fill's amounts to its order's line. */
  function AddFill(line: OrderSummary, f: Fill): OrderSummary {
    line.(cost := line.cost + CostOf(f), amount := line.amount + AmountOf(f), pnl := line.pnl + PnlOf(f))
  }

  /** One iteration of the aggregation loop. */
  function Absorb(orders: map<string, OrderSummary>, f: Fill): (r: map<string, OrderSummary>)
    ensures OrderKey(f).None? ==> r == orders
    ensures OrderKey(f).Some? ==>
      var k := OrderKey(f).value;
      && r.Keys == orders.Keys + {k}
      && (forall k' :: k' in orders && k' != k ==> r[k'] == orders[k'])
      && r[k].cost == (if k in orders then orders[k].cost else 0.0) + CostOf(f)
      && r[k].amount == (if k in orders then orders[k].amount else 0.0) + AmountOf(f)
      && r[k].pnl == (if k in orders then orders[k].pnl else 0.0) + PnlOf(f)
      && (k in orders ==> r[k].symbol == orders[k].symbol && r[k].side == orders[k].side
                          && r[k].timestamp == orders[k].timestamp)
      && (k !in orders ==> r[k].symbol == f.symbol.Get("N/A") && r[k].side == f.side.Get("")
                           && r[k].timestamp == f.timestamp.Get(0))
  {
    match OrderKey(f)
    case None => orders
    case Some(k) => orders[k := AddFill(if k in orders then orders[k] else Opening(f), f)]
  }

  lemma OrdersSnoc(fs: seq<Fill>, f: Fill)
    ensures Orders(fs + [f]) == Orders(fs) + (if OrderKey(f).Some? then {OrderKey(f).value} else {})
  {
  }

  lemma TotalSnoc(fs: seq<Fill>, f: Fill, k: string, value: Fill -> real)
    ensures Total(fs + [f], k, value) == Total(fs, k, value) + (if OrderKey(f) == Some(k) then value(f) else 0.0)
  {
  }

  lemma FirstFillSnoc(fs: seq<Fill>, f: Fill, k: string)
    ensures FirstFill(fs + [f], k) ==
      if FirstFill(fs, k).Some? then FirstFill(fs, k)
      else if OrderKey(f) == Some(k) then Some(f) else None
  {
  }

  /** A fill of another order leaves a matching line matching. */
  lemma LineUnaffected(fs: seq<Fill>, f: Fill, k: string, line: OrderSummary)
    requires LineMatches(fs, k, line) && OrderKey(f) != Some(k)
    ensures LineMatches(fs + [f], k, line)
  {
  }

  /** A further fill of an order is added to its line. */
  lemma LineExtended(fs: seq<Fill>, f: Fill, k: string, line: OrderSummary)
    requires LineMatches(fs, k, line) && OrderKey(f) == Some(k)
    ensures LineMatches(fs + [f], k, AddFill(line, f))
  {
  }

  /** The first fill of an order opens its line. */
  lemma LineOpened(fs: seq<Fill>, f: Fill, k: string)
    requires k !in Orders(fs) && OrderKey(f) == Some(k)
    ensures LineMatches(fs + [f], k, AddFill(Opening(f), f))
  {
    FirstFillAbsent(fs, k);
    TotalAbsent(fs, k, CostOf);
    TotalAbsent(fs, k, AmountOf);
    TotalAbsent(fs, k, PnlOf);
  }

  /** One loop iteration turns the summary of a prefix into the summary of
      the next prefix. */
  lemma AbsorbStep(fs: seq<Fill>, f: Fill, orders: map<string, OrderSummary>)
    requires Summarizes(fs, orders)
    ensures Summarizes(fs + [f], Absorb(orders, f))
  {
    var after := Absorb(orders, f);
    OrdersSnoc(fs, f);
    forall k' | k' in after
      ensures LineMatches(fs + [f], k', after[k'])
    {
      if OrderKey(f) == Some(k') {
        if k' in orders {
          LineExtended(fs, f, k', orders[k']);
        } else {
          LineOpened(fs, f, k');
        }
      } else {
        LineUnaffected(fs, f, k', orders[k']);
      }
    }
  }

  /** The per-order aggregation of `/history`: one line per order identifier
      present in the fills; symbol, side and timestamp from the order's first
      fill; cost, amount and PnL summed over all its fills. Fills without an
      identifier are skipped. */
  method AggregateOrders(fs: seq<Fill>) returns (orders: map<string, OrderSummary>)
    ensures orders.Keys == Orders(fs)
    ensures forall k :: k in orders ==>
      && FirstFill(fs, k).Some?
      && orders[k].symbol == Opening(FirstFill(fs, k).value).symbol
      && orders[k].side == Opening(FirstFill(fs, k).value).side
      && orders[k].timestamp == Opening(FirstFill(fs, k).value).timestamp
    ensures forall k :: k in orders ==>
      && orders[k].cost == Total(fs, k, CostOf)
      && orders[k].amount == Total(fs, k, AmountOf)
      && orders[k].pnl == Total(fs, k, PnlOf)
  {
    orders := map[];
    var i := 0;
    while i < |fs|
      invariant 0 <= i <= |fs|
      invariant Summarizes(fs[..i], orders)
    {
      AbsorbStep(fs[..i], fs[i], orders);
      assert fs[..i + 1] == fs[..i] + [fs[i]];
      orders := Absorb(orders, fs[i]);
      i := i + 1;
    }
    assert fs[..|fs|] == fs;
  }

  /** An order that does not appear has no first fill. */
  lemma {:induction false} FirstFillAbsent(fs: seq<Fill>, k: string)
    requires k !in Orders(fs)
    ensures FirstFill(fs, k).None?
  {
    if fs != [] {
      FirstFillAbsent(fs[..|fs| - 1], k);
    }
  }

  /** An order that does not appear sums to nothing. */
  lemma {:induction false} TotalAbsent(fs: seq<Fill>, k: string, value: Fill -> real)
    requires k !in Orders(fs)
    ensures Total(fs, k, value) == 0.0
  {
    if fs != [] {
      TotalAbsent(fs[..|fs| - 1], k, value);
    }
  }
}

=== FILE: pending.dfy ===
/** Pending signals and their re-validation at the next candle
    (`select_and_execute_best_pending_signal` in main.py). A signal detected
    during a candle waits in the pending book; when a new candle opens, its
    take-profit and reward/risk ratio are recomputed at the new open, the
    ones still worth at least the minimum ratio survive, the book is emptied
    and the survivor with the best ratio is the one traded. */
module Pending {
  import opened Wrappers
  import opened Ratios

  /** A detected signal: the fields the re-validation reads or writes, and
      `others`, every other key the detector sets, with its value written in
      a canonical text form in which equal values have equal text (so `1` and
      `1.0`, or `0.0` and `-0.0`, share one text). Two signals are equal only
      when all of their keys agree, as for the dictionaries they stand for. */
  datatype Signal = Signal(side: string, regime: string, entry: real, sl: real,
                           tp: real, rr: real, symbol: string, others: map<string, string>)

  /** One pending signal: the symbol it is stored under, the signal, the
      timestamp of the candle it was detected on, and the entry price set
      when it is confirmed. */
  datatype Entry = Entry(symbol: string, signal: Signal, candleTimestamp: int,
                         newEntryPrice: Option<real>)

  /** The pending dictionary, in insertion order (Python dictionaries iterate
      in insertion order, and that order breaks ties between equal ratios). */
  type Book = seq<Entry>

  /** Each symbol is stored at most once, as in a dictionary. */
  ghost predicate UniqueSymbols(b: Book) {
    forall i, j :: 0 <= i < j < |b| ==> b[i].symbol != b[j].symbol
  }

  /** Bollinger bands of the last candle, as computed by the indicator code. */
  datatype Bands = Bands(bb20Up: real, bb20Lo: real, bb80Up: real, bb80Lo: real)

  /** What a fresh download of a symbol's candles yields: the timestamp and
      opening price of the newest candle, and its bands when indicators could
      be computed. */
  datatype Candles = Candles(lastTimestamp: int, lastOpen: real, indicators: Option<Bands>)

  /** The fresh downloads, by symbol; a symbol whose download failed is absent. */
  type Market = map<string, Candles>

  const TREND := "Tendance"
  const COUNTER_TREND := "Contre-tendance"

  predicate IsLong(s: Signal) {
    s.side == "buy"
  }

  /** The take-profit for the new candle: the 80-period band in the trade's
      direction for a trend signal, the upper 20-period band for a long
      counter-trend signal, and the lower 20-period band in every other case. */
  function TakeProfit(isLong: bool, regime: string, b: Bands): (tp: real)
    ensures isLong && regime == TREND ==> tp == b.bb80Up
    ensures !isLong && regime == TREND ==> tp == b.bb80Lo
    ensures isLong && regime == COUNTER_TREND ==> tp == b.bb20Up
    ensures regime != TREND && !(isLong && regime == COUNTER_TREND) ==> tp == b.bb20Lo
  {
    if isLong && regime == TREND then b.bb80Up
    else if !isLong && regime == TREND then b.bb80Lo
    else if isLong && regime == COUNTER_TREND then b.bb20Up
    else b.bb20Lo
  }

  /** Reward over risk: the distance to the take-profit divided by the
      distance to the stop-loss, each measured in the trade's direction;
      exactly 0 when the stop-loss is not on the losing side of the entry. */
  function RiskReward(isLong: bool, entry: real, sl: real, tp: real): (rr: real)
    ensures isLong && entry > sl ==> IsQuotient(rr, tp - entry, entry - sl)
    ensures !isLong && sl > entry ==> IsQuotient(rr, entry - tp, sl - entry)
    ensures (isLong && entry <= sl) || (!isLong && sl <= entry) ==> rr == 0.0
  {
    if isLong && entry - sl > 0.0 then (tp - entry) / (entry - sl)
    else if !isLong && sl - entry > 0.0 then (entry - tp) / (sl - entry)
    else 0.0
  }

  /** The threshold test without the division: a long signal with its
      stop-loss below the open passes exactly when the take-profit lies at
      least `minRR` risks above the open (and symmetrically for a short). */
  lemma RiskRewardThreshold(isLong: bool, entry: real, sl: real, tp: real, minRR: real)
    ensures isLong && entry > sl ==>
      (RiskReward(isLong, entry, sl, tp) >= minRR <==> tp - entry >= minRR * (entry - sl))
    ensures !isLong && sl > entry ==>
      (RiskReward(isLong, entry, sl, tp) >= minRR <==> entry - tp >= minRR * (sl - entry))
  {
  }

  /** Whether a download brought a newer candle with indicators. */
  predicate HasNewCandle(e: Entry, market: Market) {
    && e.symbol in market
    && market[e.symbol].lastTimestamp > e.candleTimestamp
    && market[e.symbol].indicators.Some?
  }

  /** The ratio a pending signal has at the new candle's open. */
  function NewRiskReward(e: Entry, market: Market): real
    requires HasNewCandle(e, market)
  {
    var c := market[e.symbol];
    var isLong := IsLong(e.signal);
    RiskReward(isLong, c.lastOpen, e.signal.sl,
               TakeProfit(isLong, e.signal.regime, c.indicators.value))
  }

  /** One iteration of the re-validation loop: skipped without a newer
      candle with indicators, dropped below `minRR`, and otherwise confirmed
      with the new take-profit, ratio, entry price and symbol. */
  function Revalidate(e: Entry, market: Market, minRR: real): (r: Option<Entry>)
    ensures r.Some? <==> HasNewCandle(e, market) && NewRiskReward(e, market) >= minRR
    ensures r.Some? ==>
      var c := market[e.symbol];
      && r.value.signal.rr >= minRR
      && r.value == e.(signal := e.signal.(
                         tp := TakeProfit(IsLong(e.signal), e.signal.regime, c.indicators.value),
                         rr := NewRiskReward(e, market),
                         entry := c.lastOpen,
                         symbol := e.symbol),
                       newEntryPrice := Some(c.lastOpen))
  {
    if !HasNewCandle(e, market) then None
    else
      var c := market[e.symbol];
      var isLong := IsLong(e.signal);
      var tp := TakeProfit(isLong, e.signal.regime, c.indicators.value);
      var rr := RiskReward(isLong, c.lastOpen, e.signal.sl, tp);
      if rr >= minRR then
        Some(e.(signal := e.signal.(tp := tp, rr := rr, entry := c.lastOpen, symbol := e.symbol),
                newEntryPrice := Some(c.lastOpen)))
      else None
  }

  /** The signal chosen for execution and its position in the book. */
  datatype Choice = Choice(index: nat, entry: Entry)

  /** `select_and_execute_best_pending_signal`, with the downloads as input
      and the trade to execute as output. The book always comes back empty.
      Nothing is chosen exactly when no signal survives; otherwise the chosen
      signal is a survivor with the greatest ratio, and no earlier survivor
      has the same ratio: the descending sort is stable, so ties go to the
      signal pending longest. */
  method SelectBest(b: Book, market: Market, minRR: real) returns (after: Book, chosen: Option<Choice>)
    ensures after == []
    ensures chosen.None? <==> forall j :: 0 <= j < |b| ==> Revalidate(b[j], market, minRR).None?
    ensures chosen.Some? ==>
      var k := chosen.value.index;
      && k < |b|
      && Revalidate(b[k], market, minRR) == Some(chosen.value.entry)
      && chosen.value.entry.signal.rr >= minRR
      && (forall j :: 0 <= j < |b| && Revalidate(b[j], market, minRR).Some? ==>
            Revalidate(b[j], market, minRR).value.signal.rr <= chosen.value.entry.signal.rr)
      && (forall j :: 0 <= j < k && Revalidate(b[j], market, minRR).Some? ==>
            Revalidate(b[j], market, minRR).value.signal.rr < chosen.value.entry.signal.rr)
  {
    chosen := None;
    var i := 0;
    while i < |b|
      invariant 0 <= i <= |b|
      invariant chosen.None? <==> forall j :: 0 <= j < i ==> Revalidate(b[j], market, minRR).None?
      invariant chosen.Some? ==>
        var k := chosen.value.index;
        && k < i
        && Revalidate(b[k], market, minRR) == Some(chosen.value.entry)
        && (forall j :: 0 <= j < i && Revalidate(b[j], market, minRR).Some? ==>
              Revalidate(b[j], market, minRR).value.signal.rr <= chosen.value.entry.signal.rr)
        && (forall j :: 0 <= j < k && Revalidate(b[j], market, minRR).Some? ==>
              Revalidate(b[j], market, minRR).value.signal.rr < chosen.value.entry.signal.rr)
    {
      var r := Revalidate(b[i], market, minRR);
      if r.Some? && (chosen.None? || r.value.signal.rr > chosen.value.entry.signal.rr) {
        chosen := Some(Choice(i, r.value));
      }
      i := i + 1;
    }
    after := [];
  }
}

=== FILE: ratios.dfy ===
/** Ratios stated by multiplication, so that contracts about averages and
    percentages need no division. */
module Ratios {

  /** `q` is the quotient `num / den`, stated without a division. */
  predicate IsQuotient(q: real, num: real, den: real) {
    q * den == num
  }
}

=== FILE: recent.dfy ===
/** The list of recently detected signals (`_recent_signals` in main.py):
    pruned to a time window, and listed by the `/signals` (last hour) and
    `/recent` (last six hours) commands. Times are seconds since the epoch,
    as `time.time()` returns them. */
module Recent {
  import opened Pending

  datatype RecentSignal = RecentSignal(timestamp: real, symbol: string, signal: Signal)

  /** The window the trading loop prunes to, `cleanup_recent_signals`'s default. */
  const RETENTION_HOURS: int := 6

  /** The earliest timestamp still inside a window of `hours` ending at `now`. */
  function Cutoff(now: real, hours: int): real {
    now - (hours * 60 * 60) as real
  }

  /** The entries stamped at or after `cutoff`, in their original order. */
  function KeepSince(rs: seq<RecentSignal>, cutoff: real): (r: seq<RecentSignal>)
    ensures |r| <= |rs|
    ensures forall x :: x in r ==> x in rs && x.timestamp >= cutoff
  {
    if rs == [] then []
    else (if rs[0].timestamp >= cutoff then [rs[0]] else []) + KeepSince(rs[1..], cutoff)
  }

  /** Nothing inside the window is lost. */
  lemma {:induction false} KeepSinceKeepsRecent(rs: seq<RecentSignal>, cutoff: real)
    ensures forall x :: x in rs && x.timestamp >= cutoff ==> x in KeepSince(rs, cutoff)
  {
    if rs != [] {
      KeepSinceKeepsRecent(rs[1..], cutoff);
      assert rs == [rs[0]] + rs[1..];
    }
  }

  /** Pruning commutes with concatenation: each part keeps its survivors in
      their original order. */
  lemma {:induction false} KeepSinceAppend(a: seq<RecentSignal>, b: seq<RecentSignal>, cutoff: real)
    ensures KeepSince(a + b, cutoff) == KeepSince(a, cutoff) + KeepSince(b, cutoff)
  {
    if a == [] {
      assert a + b == b;
    } else {
      assert (a + b)[1..] == a[1..] + b;
      KeepSinceAppend(a[1..], b, cutoff);
    }
  }

  /** Pruning with a cutoff and then with a later one is pruning with the
      later one; with equal cutoffs this is idempotence. */
  lemma {:induction false} KeepSinceTwice(rs: seq<RecentSignal>, c1: real, c2: real)
    ensures c1 <= c2 ==> KeepSince(KeepSince(rs, c1), c2) == KeepSince(rs, c2)
  {
    if rs != [] && c1 <= c2 {
      KeepSinceTwice(rs[1..], c1, c2);
      KeepSinceAppend(if rs[0].timestamp >= c1 then [rs[0]] else [], KeepSince(rs[1..], c1), c2);
    }
  }

  /** `cleanup_recent_signals(hours)` at time `now`. */
  function Cleanup(rs: seq<RecentSignal>, now: real, hours: int): (r: seq<RecentSignal>)
    ensures forall x :: x in r <==> x in rs && x.timestamp >= Cutoff(now, hours)
  {
    KeepSinceKeepsRecent(rs, Cutoff(now, hours));
    KeepSince(rs, Cutoff(now, hours))
  }

  /** Cleaning up twice at the same moment is cleaning up once. */
  lemma CleanupIdempotent(rs: seq<RecentSignal>, now: real, hours: int)
    ensures Cleanup(Cleanup(rs, now, hours), now, hours) == Cleanup(rs, now, hours)
  {
    KeepSinceTwice(rs, Cutoff(now, hours), Cutoff(now, hours));
  }

  /** The reply to a listing command. */
  datatype Listing =
    | NoSignals(hours: int)
    | Signals(hours: int, count: nat, items: seq<RecentSignal>)

  function ListingOf(hours: int, items: seq<RecentSignal>): (l: Listing)
    ensures l.NoSignals? <==> items == []
    ensures l.Signals? ==> l.count == |l.items| && l.items == items && l.hours == hours
  {
    if items == [] then NoSignals(hours) else Signals(hours, |items|, items)
  }

  /** `get_recent_signals_message(hours)` as written: it prunes the shared
      list to the requested window at `cleanupNow`, then lists the entries
      inside the window ending at `now`. Returns the list left behind and
      the reply. */
  function RecentMessageAsWritten(rs: seq<RecentSignal>, hours: int, cleanupNow: real, now: real)
    : (r: (seq<RecentSignal>, Listing))
    ensures forall x :: x in r.0 <==> x in rs && x.timestamp >= Cutoff(cleanupNow, hours)
    ensures cleanupNow <= now ==> r.1 == ListingOf(hours, Cleanup(rs, now, hours))
  {
    var kept := Cleanup(rs, cleanupNow, hours);
    KeepSinceTwice(rs, Cutoff(cleanupNow, hours), Cutoff(now, hours));
    (kept, ListingOf(hours, KeepSince(kept, Cutoff(now, hours))))
  }

  /** The defect: `/signals` asks for one hour, which prunes from the shared
      list a signal two hours old that `/recent` (six hours) should still
      show. */
  lemma OneHourListingLosesRecentSignal(s: Signal, now: real)
    ensures var rs := [RecentSignal(now - 7200.0, "BTC/USDT:USDT", s)];
            && RecentMessageAsWritten(rs, 1, now, now).0 == []
            && RecentMessageAsWritten(RecentMessageAsWritten(rs, 1, now, now).0, RETENTION_HOURS, now, now).1
               == NoSignals(RETENTION_HOURS)
            && RecentMessageAsWritten(rs, RETENTION_HOURS, now, now).1 == Signals(RETENTION_HOURS, 1, rs)
  {
  }

  /** The window the shared list is pruned to when a listing asks for
      `hours`: never shorter than the retention window. */
  function PruneHours(hours: int): (h: int)
    ensures h >= hours && h >= RETENTION_HOURS
  {
    if hours > RETENTION_HOURS then hours else RETENTION_HOURS
  }

  /** The listing as intended: the shared list is pruned to the retention
      window (or the requested one when longer), and only the reply is
      restricted to the requested window. */
  function RecentMessage(rs: seq<RecentSignal>, hours: int, cleanupNow: real, now: real)
    : (r: (seq<RecentSignal>, Listing))
    ensures forall x :: x in r.0 <==> x in rs && x.timestamp >= Cutoff(cleanupNow, PruneHours(hours))
    ensures cleanupNow <= now ==> r.1 == ListingOf(hours, Cleanup(rs, now, hours))
  {
    var kept := Cleanup(rs, cleanupNow, PruneHours(hours));
    KeepSinceTwice(rs, Cutoff(cleanupNow, PruneHours(hours)), Cutoff(now, hours));
    (kept, ListingOf(hours, KeepSince(kept, Cutoff(now, hours))))
  }

  /** Whatever window a listing asks for, the list it leaves behind still
      holds everything the retention window holds, so a later `/recent`
      sees the same signals as if the listing had not happened. */
  lemma RecentMessageKeepsRetention(rs: seq<RecentSignal>, hours: int, now: real)
    ensures Cleanup(RecentMessage(rs, hours, now, now).0, now, RETENTION_HOURS)
            == Cleanup(rs, now, RETENTION_HOURS)
  {
    var kept := RecentMessage(rs, hours, now, now).0;
    assert kept == KeepSince(rs, Cutoff(now, PruneHours(hours)));
    KeepSinceTwice(rs, Cutoff(now, PruneHours(hours)), Cutoff(now, RETENTION_HOURS));
  }
}

=== FILE: reporting.dfy ===
/** Performance statistics over closed trades and the decisions the report
    formatter takes on them (reporting.py). Python floats are exact reals
    here; an infinite float is the `Infinite` profit factor. */
module Reporting {
  import opened Database
  import opened Ratios

  /** A profit factor: a ratio, or infinity when nothing was lost. */
  datatype ProfitFactor = Finite(value: real) | Infinite

  /** The statistics dictionary. `NoTrades` is the one-key dictionary
      `{"total_trades": 0}` returned for an empty trade list. */
  datatype Stats =
    | NoTrades
    | Summary(totalTrades: nat, nbWins: nat, nbLosses: nat, winRate: real,
              totalPnl: real, profitFactor: ProfitFactor, avgWin: real, avgLoss: real)
  {
    /** The number of trades the statistics cover, 0 when there were none. */
    function TotalTrades(): nat {
      if NoTrades? then 0 else totalTrades
    }
  }

  /** The trades with a strictly positive PnL, in their original order. */
  function Wins(ts: seq<Trade>): (r: seq<Trade>)
    ensures |r| <= |ts|
  {
    if ts == [] then []
    else (if ts[0].pnl > 0.0 then [ts[0]] else []) + Wins(ts[1..])
  }

  /** A trade is a win exactly when it is in the list with a positive PnL. */
  lemma {:induction false} WinsExactly(ts: seq<Trade>)
    ensures forall t :: t in Wins(ts) <==> t in ts && t.pnl > 0.0
  {
    if ts != [] {
      WinsExactly(ts[1..]);
      assert ts == [ts[0]] + ts[1..];
    }
  }

  /** The trades with a strictly negative PnL, in their original order. */
  function Losses(ts: seq<Trade>): (r: seq<Trade>)
    ensures |r| <= |ts|
  {
    if ts == [] then []
    else (if ts[0].pnl < 0.0 then [ts[0]] else []) + Losses(ts[1..])
  }

  /** A trade is a loss exactly when it is in the list with a negative PnL. */
  lemma {:induction false} LossesExactly(ts: seq<Trade>)
    ensures forall t :: t in Losses(ts) <==> t in ts && t.pnl < 0.0
  {
    if ts != [] {
      LossesExactly(ts[1..]);
      assert ts == [ts[0]] + ts[1..];
    }
  }

  /** The net PnL of `ts`: the sum of every trade's PnL. */
  function SumPnl(ts: seq<Trade>): real {
    if ts == [] then 0.0 else ts[0].pnl + SumPnl(ts[1..])
  }

  /** The number of trades whose PnL is exactly zero: neither a win nor a loss. */
  function CountFlat(ts: seq<Trade>): nat {
    if ts == [] then 0 else (if ts[0].pnl == 0.0 then 1 else 0) + CountFlat(ts[1..])
  }

  function Abs(x: real): real {
    if x < 0.0 then -x else x
  }

  function GrossProfit(ts: seq<Trade>): real {
    SumPnl(Wins(ts))
  }

  function GrossLoss(ts: seq<Trade>): real {
    Abs(SumPnl(Losses(ts)))
  }

  /** Every trade is exactly one of win, loss or flat. */
  lemma {:induction false} CountPartition(ts: seq<Trade>)
    ensures |Wins(ts)| + |Losses(ts)| + CountFlat(ts) == |ts|
  {
    if ts != [] {
      CountPartition(ts[1..]);
    }
  }

  /** The winners sum to a non-negative amount, the losers to a
      non-positive one. */
  lemma {:induction false} GrossSigns(ts: seq<Trade>)
    ensures SumPnl(Wins(ts)) >= 0.0
    ensures SumPnl(Losses(ts)) <= 0.0
  {
    if ts != [] {
      GrossSigns(ts[1..]);
      SumPnlAppend(if ts[0].pnl > 0.0 then [ts[0]] else [], Wins(ts[1..]));
      SumPnlAppend(if ts[0].pnl < 0.0 then [ts[0]] else [], Losses(ts[1..]));
    }
  }

  /** With at least one win the winners sum to a positive amount. */
  lemma {:induction false} GrossProfitPositive(ts: seq<Trade>)
    ensures |Wins(ts)| > 0 ==> SumPnl(Wins(ts)) > 0.0
  {
    if ts == [] { return; }
    var head := if ts[0].pnl > 0.0 then [ts[0]] else [];
    SumPnlAppend(head, Wins(ts[1..]));
    GrossSigns(ts[1..]);
    if ts[0].pnl <= 0.0 {
      GrossProfitPositive(ts[1..]);
    }
  }

  /** With at least one loss the losers sum to a negative amount. */
  lemma {:induction false} GrossLossPositive(ts: seq<Trade>)
    ensures |Losses(ts)| > 0 ==> SumPnl(Losses(ts)) < 0.0
  {
    if ts == [] { return; }
    var head := if ts[0].pnl < 0.0 then [ts[0]] else [];
    SumPnlAppend(head, Losses(ts[1..]));
    GrossSigns(ts[1..]);
    if ts[0].pnl >= 0.0 {
      GrossLossPositive(ts[1..]);
    }
  }

  lemma {:induction false} SumPnlAppend(a: seq<Trade>, b: seq<Trade>)
    ensures SumPnl(a + b) == SumPnl(a) + SumPnl(b)
  {
    if a == [] {
      assert a + b == b;
    } else {
      assert (a + b)[1..] == a[1..] + b;
      SumPnlAppend(a[1..], b);
    }
  }

  /** The net PnL is the gross profit minus the gross loss: flat trades add
      nothing. */
  lemma {:induction false} NetIsProfitMinusLoss(ts: seq<Trade>)
    ensures SumPnl(ts) == GrossProfit(ts) - GrossLoss(ts)
    ensures GrossProfit(ts) >= 0.0 && GrossLoss(ts) >= 0.0
  {
    NetSplit(ts);
    GrossSigns(ts);
  }

  lemma {:induction false} NetSplit(ts: seq<Trade>)
    ensures SumPnl(ts) == SumPnl(Wins(ts)) + SumPnl(Losses(ts))
  {
    if ts != [] {
      NetSplit(ts[1..]);
      SumPnlAppend(if ts[0].pnl > 0.0 then [ts[0]] else [], Wins(ts[1..]));
      SumPnlAppend(if ts[0].pnl < 0.0 then [ts[0]] else [], Losses(ts[1..]));
    }
  }

  /** The share of winners as a percentage of all trades, 0 when there are
      no trades. */
  function WinRate(nbWins: nat, total: nat): (rate: real)
    ensures total > 0 ==> IsQuotient(rate, (nbWins as real) * 100.0, total as real)
    ensures total > 0 && nbWins <= total ==> 0.0 <= rate <= 100.0
    ensures total == 0 ==> rate == 0.0
  {
    if total > 0 then
      var q := nbWins as real / total as real;
      assert q * (total as real) == nbWins as real;
      assert nbWins <= total ==> q <= 1.0;
      q * 100.0
    else 0.0
  }

  /** The average of `count` amounts summing to `amount`, 0 when there are
      none, positive when the amount is. */
  function Average(amount: real, count: nat): (avg: real)
    ensures count == 0 ==> avg == 0.0
    ensures count > 0 ==> IsQuotient(avg, amount, count as real)
    ensures count > 0 && amount > 0.0 ==> avg > 0.0
  {
    if count > 0 then amount / count as real else 0.0
  }

  /** Gross profit over gross loss; infinite when nothing was lost. */
  function Factor(grossProfit: real, grossLoss: real): (pf: ProfitFactor)
    ensures pf.Infinite? <==> grossLoss <= 0.0
    ensures pf.Finite? ==> IsQuotient(pf.value, grossProfit, grossLoss)
    ensures pf.Finite? && grossProfit >= 0.0 ==> pf.value >= 0.0
  {
    if grossLoss > 0.0 then Finite(grossProfit / grossLoss) else Infinite
  }

  /** `get_report_stats`: the one-key dictionary for no trades; otherwise
      the counts of wins (PnL > 0) and losses (PnL < 0), the win rate as a
      percentage, the net PnL as gross profit minus gross loss, the average
      win and loss (0 when there are none), and the profit factor, infinite
      exactly when the gross loss is 0. */
  function ReportStats(ts: seq<Trade>): (r: Stats)
    ensures r.NoTrades? <==> ts == []
    ensures r.TotalTrades() == |ts|
    ensures r.Summary? ==>
      && r.nbWins == |Wins(ts)| && r.nbLosses == |Losses(ts)|
      && r.nbWins + r.nbLosses <= r.totalTrades
      && 0.0 <= r.winRate <= 100.0
      && IsQuotient(r.winRate, (r.nbWins as real) * 100.0, |ts| as real)
    ensures r.Summary? ==>
      && r.totalPnl == GrossProfit(ts) - GrossLoss(ts)
      && (r.nbWins == 0 ==> r.avgWin == 0.0)
      && (r.nbWins > 0 ==> r.avgWin > 0.0 && IsQuotient(r.avgWin, GrossProfit(ts), r.nbWins as real))
      && (r.nbLosses == 0 ==> r.avgLoss == 0.0)
      && (r.nbLosses > 0 ==> r.avgLoss > 0.0 && IsQuotient(r.avgLoss, GrossLoss(ts), r.nbLosses as real))
    ensures r.Summary? ==>
      && (r.profitFactor.Infinite? <==> GrossLoss(ts) == 0.0)
      && (r.profitFactor.Finite? ==> r.profitFactor.value >= 0.0)
      && (r.profitFactor.Finite? ==> IsQuotient(r.profitFactor.value, GrossProfit(ts), GrossLoss(ts)))
  {
    var total := |ts|;
    if total == 0 then NoTrades
    else
      var wins, losses := Wins(ts), Losses(ts);
      var nbWins, nbLosses := |wins|, |losses|;
      var grossProfit := SumPnl(wins);
      var grossLoss := Abs(SumPnl(losses));
      CountPartition(ts);
      NetIsProfitMinusLoss(ts);
      GrossProfitPositive(ts);
      GrossLossPositive(ts);
      Summary(total, nbWins, nbLosses, WinRate(nbWins, total), SumPnl(ts),
              Factor(grossProfit, grossLoss),
              Average(grossProfit, nbWins), Average(grossLoss, nbLosses))
  }

  /** How the profit factor is printed. */
  datatype PfText = Label(text: string) | TwoDecimals(value: real)

  const INFINITE_PF_LABEL := "Infini (aucune perte)"

  /** The report: either the "no closed trades" notice or the full summary. */
  datatype Report =
    | NoClosedTrades(title: string, text: string)
    | Full(title: string, stats: Stats, profitFactor: PfText)

  /** `format_report_message`: the notice exactly when the statistics count
      no trade; otherwise a summary whose profit factor reads
      "Infini (aucune perte)" when infinite and is printed with two decimals
      when finite. */
  function FormatReport(title: string, stats: Stats): (m: Report)
    ensures m.NoClosedTrades? <==> stats.TotalTrades() == 0
    ensures m.NoClosedTrades? ==> m.title == title
    ensures m.Full? ==> m.stats == stats && m.stats.Summary?
    ensures m.Full? ==> (m.profitFactor == Label(INFINITE_PF_LABEL) <==> stats.profitFactor.Infinite?)
    ensures m.Full? && stats.profitFactor.Finite? ==> m.profitFactor == TwoDecimals(stats.profitFactor.value)
  {
    if stats.TotalTrades() == 0 then
      NoClosedTrades(title, "<b>" + title + "</b>\n\n- Pas de trades clôturés durant cette période.")
    else
      var pf := if stats.profitFactor.Infinite? then Label(INFINITE_PF_LABEL)
                else TwoDecimals(stats.profitFactor.value);
      Full(title, stats, pf)
  }

  /** A long trade closed above its entry, with positive price and size,
      counts as a win in the statistics. */
  lemma ProfitableCloseIsWin(s: Store, id: nat, status: string, exitPrice: real, clock: real)
    requires id in s.trades
    requires s.trades[id].side == "buy" && s.trades[id].entryPrice > 0.0 && s.trades[id].quantity > 0.0
    requires exitPrice > s.trades[id].entryPrice
    ensures var u := CloseTrade(s, id, status, exitPrice, clock).trades[id];
            ReportStats([u]) == Summary(1, 1, 0, 100.0, u.pnl, Infinite, u.pnl, 0.0)
  {
  }

  /** End to end: the report on a trade list is the notice exactly when the
      list is empty, and shows the infinite label exactly when there are
      trades and none of them lost money. */
  lemma ReportOnTrades(title: string, ts: seq<Trade>)
    ensures FormatReport(title, ReportStats(ts)).NoClosedTrades? <==> ts == []
    ensures FormatReport(title, ReportStats(ts)) == Full(title, ReportStats(ts), Label(INFINITE_PF_LABEL))
            <==> ts != [] && |Losses(ts)| == 0
  {
  }
}

=== FILE: scan.dfy ===
/** What the universe scan does with a detected signal (main.py, the body of
    the scan loop in `trading_engine_loop`): it is remembered in the recent
    list unless an equal signal is already there, and it becomes pending
    unless its symbol already has a pending signal. */
module Scan {
  import opened Wrappers
  import opened Pending
  import opened Recent

  /** The two shared collections the scan writes. */
  datatype ScanState = ScanState(recent: seq<RecentSignal>, pending: Book)

  /** No two recent entries carry equal signals. */
  ghost predicate DistinctSignals(rs: seq<RecentSignal>) {
    forall i, j :: 0 <= i < j < |rs| ==> rs[i].signal != rs[j].signal
  }

  ghost predicate Valid(st: ScanState) {
    DistinctSignals(st.recent) && UniqueSymbols(st.pending)
  }

  predicate HasSignal(rs: seq<RecentSignal>, s: Signal) {
    exists i :: 0 <= i < |rs| && rs[i].signal == s
  }

  predicate HasSymbol(b: Book, symbol: string) {
    exists i :: 0 <= i < |b| && b[i].symbol == symbol
  }

  /** The pending entry stored under `symbol`, looked
      up from the oldest. */
  function Lookup(b: Book, symbol: string): (r: Option<Entry>)
    ensures r.Some? <==> HasSymbol(b, symbol)
    ensures r.Some? ==> r.value in b && r.value.symbol == symbol
  {
    if b == [] then None
    else if b[0].symbol == symbol then Some(b[0])
    else
      var r := Lookup(b[1..], symbol);
      assert HasSymbol(b[1..], symbol) ==> HasSymbol(b, symbol) by {
        if HasSymbol(b[1..], symbol) {
          var i :| 0 <= i < |b[1..]| && b[1..][i].symbol == symbol;
          assert b[i + 1].symbol == symbol;
        }
      }
      r
  }

  /** A signal detected on `symbol` during the candle stamped `candleTs`,
      at time `now`. */
  function OnSignal(st: ScanState, symbol: string, signal: Signal, candleTs: int, now: real): (r: ScanState)
    ensures HasSignal(st.recent, signal) ==> r.recent == st.recent
    ensures !HasSignal(st.recent, signal) ==> r.recent == st.recent + [RecentSignal(now, symbol, signal)]
    ensures HasSymbol(st.pending, symbol) ==> r.pending == st.pending
    ensures !HasSymbol(st.pending, symbol) ==> r.pending == st.pending + [Entry(symbol, signal, candleTs, None)]
    ensures HasSignal(r.recent, signal) && HasSymbol(r.pending, symbol)
  {
    var recent := if HasSignal(st.recent, signal) then st.recent
                  else st.recent + [RecentSignal(now, symbol, signal)];
    var pending := if HasSymbol(st.pending, symbol) then st.pending
                   else st.pending + [Entry(symbol, signal, candleTs, None)];
    assert recent[|recent| - 1].signal == signal ==> HasSignal(recent, signal);
    assert pending[|pending| - 1].symbol == symbol ==> HasSymbol(pending, symbol);
    ScanState(recent, pending)
  }

  /** Recording a detection keeps recent signals distinct and pending
      symbols unique. */
  lemma OnSignalPreservesValid(st: ScanState, symbol: string, signal: Signal, candleTs: int, now: real)
    requires Valid(st)
    ensures Valid(OnSignal(st, symbol, signal, candleTs, now))
  {
  }

  /** Two detections that differ in any key, even one the re-validation never
      reads, are both remembered. */
  lemma DifferentSignalsBothRemembered(st: ScanState, symbol: string, s1: Signal, s2: Signal,
                                       ts: int, now1: real, now2: real)
    requires !HasSignal(st.recent, s1) && !HasSignal(st.recent, s2) && s1 != s2
    ensures OnSignal(OnSignal(st, symbol, s1, ts, now1), symbol, s2, ts, now2).recent
            == st.recent + [RecentSignal(now1, symbol, s1), RecentSignal(now2, symbol, s2)]
  {
  }

  /** Looking up a symbol that only the appended entry carries finds it. */
  lemma {:induction false} LookupAppended(b: Book, e: Entry)
    requires !HasSymbol(b, e.symbol)
    ensures Lookup(b + [e], e.symbol) == Some(e)
  {
    if b == [] {
      assert b + [e] == [e];
    } else {
      assert (b + [e])[1..] == b[1..] + [e];
      LookupAppended(b[1..], e);
    }
  }

  /** The first signal wins: once a symbol is pending, later detections on
      it leave its pending signal as it was. */
  lemma FirstPendingWins(st: ScanState, symbol: string, s1: Signal, s2: Signal,
                         ts1: int, ts2: int, now1: real, now2: real)
    requires !HasSymbol(st.pending, symbol)
    ensures var st1 := OnSignal(st, symbol, s1, ts1, now1);
            var st2 := OnSignal(st1, symbol, s2, ts2, now2);
            && st2.pending == st1.pending
            && Lookup(st2.pending, symbol) == Some(Entry(symbol, s1, ts1, None))
  {
  }
}

=== FILE: wrappers.dfy ===
/** Optional values, standing in for Python's `None` and for dictionary
    lookups that may miss. */
module Wrappers {

  datatype Option<+T> = None | Some(value: T) {

    /** The wrapped value, or `default` when there is none. */
    function GetOr(default: T): (r: T)
      ensures Some? ==> r == value
      ensures None? ==> r == default
    {
      match this
      case Some(v) => v
      case None => default
    }
  }
}
